=== FILE: README.md ===
# Changelog report: PR analysis and grouping, in Dafny

The repository is a React front end. It renders a changelog report for one
GitHub repository. The list component posts the repository's pull requests,
with their diffs, to an analysis service. The service says, for each PR,
whether it is relevant, which category it belongs to, and a title and
excerpt. The component joins each result to its PR **by position**, keeps
the relevant ones, sorts them into five groups (feature, bugfix,
improvement, documentation, other) and shows one section per non-empty
group. Each entry is a card. The card picks an icon, a status chip, a
category chip, label chips with readable text colours and two links.

The model is pure functions over immutable datatypes:

| file | module | what it holds |
|---|---|---|
| `js.dfy` | `Js` | `undefined`/`null` as `Option`, string truthiness, ASCII case mapping, the decimal text of an integer and its read-back |
| `model.dfy` | `Model` | `PullRequest`, `Label`, `Changelog`, `AnalysisResult`, `EnrichedPR` |
| `batch.dfy` | `Batch` | the batch request builder |
| `grouping.dfy` | `Grouping` | positional join, relevance filter, categorisation, `groupPRsByCategory`, the relevant count |
| `list.dfy` | `ChangelogList` | the component state, one run of its effect, the loading/error/empty/list choice, the section list |
| `entry.dfy` | `ChangelogEntry` | the card's display rules |

The service reply is an input `Outcome`: either a response (status and
parsed results) or a thrown error with its message. Each group is stated
against an independent reference. `Select` filters the positional join,
and the stable-partition, exactly-once and count lemmas connect the groups
to it and to `RelevantCount`. The render choice is stated in terms of the
groups, not of the count it tests.

Four behaviours of the code are easy to miss:

- **Extra results are kept.** Results beyond the number of PRs are not
  dropped: `{...undefined, analysis}` is an entry with no PR fields. A
  relevant one is still grouped (`Grouping.CorrelateMisaligned`). When its
  `changelogTitle` is empty, its card reads "PR #undefined" and "View
  Changes" opens "undefined/files" (`ChangelogList.ExtraResultCard`).
- **An empty PR list does not reset the list.** It shows the empty state
  on the first run (`ChangelogList.NoPrsShowsEmpty`). A later run without
  PRs only clears the loading flag, so the earlier reply stays in place:
  the empty state appears exactly when that reply had no relevant result
  (`ChangelogList.EmptyRunShowsEmptyIffNoneRelevant`), and otherwise its
  relevant results stay on screen, joined to no PR
  (`ChangelogList.StaleResultsSurviveEmptyRun`).
- **The error is never cleared.** Nothing sets `error` back to `null`.
  After a failure, once every later run has completed, the render is the
  error view again (`ChangelogList.ErrorPersists`). While a later request
  is in flight the loading view is shown
  (`ChangelogList.RequestInFlightShowsLoading`).
- **Letter case is treated two ways.** The category group and the chip
  colour match the category exactly, but the icon matches it
  case-insensitively. So "Feature" is grouped under "Other Changes" with a
  default chip and a feature icon (`ChangelogEntry.CaseMismatch`).

## Model

| member | source | states |
|---|---|---|
| `Batch.BuildRequest` | src/components/ChangelogList.js:18-26 | The request has one entry per PR, in PR order, and keeps owner and repo. Entry i has PR i's title. Its body is PR i's body, or "" when the body is missing. Its diff is `diffs[i]`, or "" when there is no diff list or the list does not reach i. |
| `Batch.DiffsCarriedInOrder` | src/components/ChangelogList.js:21-25 | When every PR has a diff, the request carries exactly the first `prs.length` diffs, in order. |
| `Grouping.CategoryOf` | src/components/ChangelogList.js:78-82 | A category string goes to the group whose key it spells exactly. Any other string goes to `other`. |
| `Grouping.KeyRoundTrip` | src/components/ChangelogList.js:59-65 | Each of the five keys routes to its own group, and each group sits at its fixed position in the key order. |
| `Grouping.Correlate` | src/components/ChangelogList.js:68-75 | There is one enriched record per analysis result, in result order. Record i pairs result i with `prs[i]`, and has no PR when i is past the end of `prs`. |
| `Grouping.CorrelateAligned` | src/components/ChangelogList.js:68-75 | The join loses nothing. The results come back out unchanged. When there is exactly one result per PR, the PRs come back out too, each paired with the result at its own index. |
| `Grouping.CorrelateMisaligned` | src/components/ChangelogList.js:68-84 | A relevant result at or past `prs.length` is not dropped: its record, with no PR, is in the group its category selects. |
| `Grouping.GroupByCategory` | src/components/ChangelogList.js:58-87 | Each group is exactly the join's records that are relevant and whose category selects that group, in index order. |
| `Grouping.GroupedAreRelevant` | src/components/ChangelogList.js:68-84 | A record is in group c if and only if it comes from the join, its result is relevant, and its category selects c. |
| `Grouping.RelevantInExactlyOneGroup` | src/components/ChangelogList.js:68-84 | The record of every relevant result is in the group its category selects, and in no other group. |
| `Grouping.GroupsPartitionRelevant` | src/components/ChangelogList.js:68-84 | Together, the five groups hold each relevant record exactly as often as the join does. |
| `Grouping.GroupSizesMatchRelevantCount` | src/components/ChangelogList.js:100 | The group sizes add up to `analyzedPRs.filter(pr => pr.relevant).length`. |
| `Grouping.NoRelevantIffAllGroupsEmpty` | src/components/ChangelogList.js:100-103 | The relevant count is 0 exactly when every group is empty. |
| `Grouping.GroupsAreStable` | src/components/ChangelogList.js:68-79 | Each group is a subsequence of the join, so records keep their analysis-index order. |
| `ChangelogList.SectionsForShape` | src/components/ChangelogList.js:119-125 | Every section shows a non-empty group of the requested categories, under that category's heading. |
| `ChangelogList.SectionsForComplete` | src/components/ChangelogList.js:119-121 | Every non-empty group of the requested categories gets a section. |
| `ChangelogList.SectionsForOrdered` | src/components/ChangelogList.js:109-119 | Sections follow the order of the requested categories. |
| `ChangelogList.Sections` | src/components/ChangelogList.js:109-121 | The list shows a section for a group exactly when that group is non-empty. Each section carries its group and heading, and sections come in the order feature, bugfix, improvement, documentation, other. |
| `ChangelogList.EntryFor` | src/components/ChangelogList.js:127-139 | The card's title, excerpt and category come from the analysis. Number, URL, author, creation date, merge date and labels come from the PR. Without a PR they are all undefined, and the labels default to []. |
| `ChangelogList.ListedCardShowsPr` | src/components/ChangelogList.js:127-139 | A listed card shows its PR: Merged exactly when the PR's merge date is truthy, its author when truthy, one chip per PR label with the label's name, links to the PR's page and its "/files", and "PR #" and the PR number when the analysis title is empty. |
| `ChangelogList.ExtraResultCard` | src/components/ChangelogList.js:71 | A result with no PR and an empty title gives a closed card headed "PR #undefined", with no author, date or labels, whose "View Changes" opens "undefined/files". |
| `ChangelogList.Run` | src/components/ChangelogList.js:9-54 | After a run the component is not loading. Without PRs, error and results are unchanged. An ok response replaces the results and leaves the error. Any other outcome sets a truthy error and leaves the results; a thrown error with message m sets "Failed to analyze PRs: " followed by m. A truthy error stays truthy. |
| `ChangelogList.NoRequestWithoutPrs` | src/components/ChangelogList.js:50-54 | Without PRs nothing is sent. The outcome plays no part, and only the loading flag changes. |
| `ChangelogList.HttpErrorMessage` | src/components/ChangelogList.js:37-45 | A non-ok status n gives the error "Failed to analyze PRs: HTTP error! Status: n", and n reads back from the message. |
| `ChangelogList.Render` | src/components/ChangelogList.js:89-121 | Loading comes first, then a truthy error, then the empty state, which is shown exactly when every group is empty. The error view shows the error text itself. Otherwise the view is a non-empty section list built from the groups. |
| `ChangelogList.PopulatedCountsRelevant` | src/components/ChangelogList.js:100-121 | The entries across all sections of a populated view add up to the relevant count. |
| `ChangelogList.SectionCardsMatchSection` | src/components/ChangelogList.js:127-139 | Cards in the four named sections get that section's icon and chip colour. Cards under "Other Changes" get the default chip colour. |
| `ChangelogList.ErrorPersists` | src/components/ChangelogList.js:44-97 | Once the error is set, the render after every later run has completed is the error view, whatever the later changelogs and outcomes. |
| `ChangelogList.RequestInFlightShowsLoading` | src/components/ChangelogList.js:12 | While a request is in flight the loading view is shown, whatever the error or the earlier reply. |
| `ChangelogList.StaleResultsSurviveEmptyRun` | src/components/ChangelogList.js:50-54 | A run without PRs keeps the previous reply, and its relevant results are listed without any PR. |
| `ChangelogList.NoPrsShowsEmpty` | src/components/ChangelogList.js:50-54 | On the first run, a changelog without PRs shows the empty state. |
| `ChangelogList.EmptyRunShowsEmptyIffNoneRelevant` | src/components/ChangelogList.js:50-54 | With no error set, a run without PRs shows the empty state exactly when the earlier reply had no relevant result. |
| `ChangelogList.TwoEmptyRunsShowEmpty` | src/components/ChangelogList.js:50-54 | Two changelogs without PRs in a row still show the empty state. |
| `ChangelogList.ServerErrorShowsStatus` | src/components/ChangelogList.js:37-45 | An HTTP 500 reply shows "Failed to analyze PRs: HTTP error! Status: 500". |
| `ChangelogList.OneFeatureGroups` | src/components/ChangelogList.js:58-87 | One relevant "feature" result and one irrelevant result give a feature group holding the first PR alone, and four empty groups. |
| `ChangelogList.OneFeatureSection` | src/components/ChangelogList.js:89-121 | The same reply renders as a single "New Features" section. |
| `ChangelogList.UnknownCategoryGoesToOther` | src/components/ChangelogList.js:78-82 | A relevant result with the unknown category "hotfix" lands in `other`. |
| `ChangelogEntry.CategoryIcon` | src/components/ChangelogEntry.js:94-107 | The icon is the one of the group the lower-cased category selects. |
| `ChangelogEntry.IconIgnoresCase` | src/components/ChangelogEntry.js:95 | Categories that differ only in letter case get the same icon. |
| `ChangelogEntry.IconKnownIffKey` | src/components/ChangelogEntry.js:94-107 | The icon is not the Help fallback exactly when the category spells one of the four named keys in some letter case. |
| `ChangelogEntry.CategoryColor` | src/components/ChangelogEntry.js:170-174 | The chip colour is the one of the group the category itself selects. The match is exact and case-sensitive. |
| `ChangelogEntry.GroupedCardStyle` | src/components/ChangelogEntry.js:94-107 | A category that selects one of the four named groups gets that group's icon and that group's chip colour. |
| `ChangelogEntry.CaseMismatch` | src/components/ChangelogEntry.js:170-174 | "Feature" gets the feature icon, but the default chip colour and the `other` group. |
| `ChangelogEntry.StatusChip` | src/components/ChangelogEntry.js:110-116 | The chip is Merged exactly when `mergedAt` is present and non-empty, and Closed otherwise. |
| `ChangelogEntry.DisplayTitle` | src/components/ChangelogEntry.js:146 | The heading is never empty. It is the title whenever the title is non-empty. |
| `ChangelogEntry.FallbackTitleNamesPr` | src/components/ChangelogEntry.js:146 | With an empty title the heading is "PR #" followed by text that reads back as the PR number. |
| `ChangelogEntry.ChipLabel` | src/components/ChangelogEntry.js:166-169 | There is a chip exactly when the category is non-empty. Its label keeps the category's length and everything after the first character. The first character is the category's first character upper-cased, so it is not a lower-case letter, and the label equals the category up to case. |
| `ChangelogEntry.WithoutHash` | src/components/ChangelogEntry.js:131 | Only the first '#' is cut out. A colour without '#' is unchanged. |
| `ChangelogEntry.Channel` | src/components/ChangelogEntry.js:132-134 | Two hex digits parse to their base-16 value: the first digit is the value divided by 16, the second the remainder, so the value is in 0..255. |
| `ChangelogEntry.IsLightColor` | src/components/ChangelogEntry.js:130-137 | A colour is light exactly when r*299 + g*587 + b*114 > 128000, on the channels parsed from it. |
| `ChangelogEntry.BrightnessThreshold` | src/components/ChangelogEntry.js:135-136 | The brightness exceeds 128 exactly when r*299 + g*587 + b*114 exceeds 128000. |
| `ChangelogEntry.LightIsMonotone` | src/components/ChangelogEntry.js:130-137 | Of two well-formed colours, if the first is light and each channel of the second is at least the first's, the second is light too. |
| `ChangelogEntry.GreyThreshold` | src/components/ChangelogEntry.js:135-136 | Mid grey "808080" sits on the threshold and is not light. "818181" is light. |
| `ChangelogEntry.LabelChips` | src/components/ChangelogEntry.js:189-201 | There is one chip per label, in label order, showing the label's name on background "#"+color. The text is "#000" exactly when the colour is light, and "#fff" exactly when it is not. |
| `ChangelogEntry.ChangesExtendPrLink` | src/components/ChangelogEntry.js:211-220 | "View PR" opens the URL as given. "View Changes" opens that URL followed by "/files". |
| `ChangelogEntry.RenderCard` | src/components/ChangelogEntry.js:139-226 | The heading is the title, or "PR #" and the number when the title is empty. Author, creation date and excerpt are shown, as given, exactly when truthy. The status is Merged exactly when `mergedAt` is truthy. The icon follows the lower-cased category's group and the chip colour the category's own group. A category chip appears exactly for a non-empty category; its label is the category with the first character upper-cased and the rest unchanged. There is one label chip per label, with its name and background, and text "#000" exactly when the colour is light and "#fff" exactly when it is not. "View PR" opens the URL and "View Changes" the URL followed by "/files". |
| `Js.IntText` | src/components/ChangelogList.js:38 | The decimal text of an integer is canonical: digits with no leading zero, after a '-' exactly for a negative number. It reads back as that integer. |
| `Js.IntTextInjective` | src/components/ChangelogEntry.js:146 | Different integers print differently. |

## Left out

- The `fetch` POST, `response.ok`'s transport and `response.json()` (src/components/ChangelogList.js:29-41). These are network I/O and a foreign JSON parser. The reply is an input `Outcome`, and a parse or transport failure is a `Thrown` outcome carrying its message.
- React's hooks, the effect's re-triggering when the changelog changes, and the race between overlapping requests. These are concurrency. A run is modelled as completing before the next one starts, and `Replay` chains runs.
- The absent `changelog` or `changelog.prs` arm of the guard at line 50. `prs` is always a sequence, as App supplies it (`|| []`), so an empty sequence stands for both.
- `formatDate`. It depends on `Date` and locale formatting. The card carries the raw `createdAt` string in place of `formatDate`'s text, and shows it exactly when it is truthy.
- Styled components, icons as elements, JSX layout, React keys and the `window.open` calls. Only the chosen icon, colours, texts and URL strings are modelled.
- All of src/App.js: environment variables, `JSON.parse`, logging and the dark-mode toggle.
- Properties that JavaScript's `in` finds on the groups object's prototype. For example, "constructor" passes the `in` test and then fails on `.push`. The model's key set is exactly the five literal keys.
- Non-string values where strings are expected (an `undefined` title or category). Fields are typed as strings. A `null` entry in `diffs` behaves like "".
- Js.Lower: maps ASCII letters only. `toLowerCase` also maps other Unicode letters.
- ChangelogEntry.ChipLabel: upper-cases ASCII letters only. `toUpperCase` can also change other letters, some into two characters.
- ChangelogEntry.IsLightColor: defined only for colours that have six hex digits once their first '#' is removed. `parseInt` yields `NaN` on other input, and a `NaN` brightness reads as dark.
- Js.IntText: gives plain decimal text for every integer. JavaScript prints numbers of 1e21 and above in exponent form ("1e+21"); HTTP statuses and PR numbers stay far below that.
- ChangelogEntry.Channel: does not model `parseInt`'s lenient prefix parsing (leading blanks, a sign, a single digit).
- The brightness division uses exact reals rather than IEEE doubles. The weighted sum is an integer of at most 255000, and no double rounding of sum/1000 crosses 128, so the comparison is the same.
- Running the pipeline twice on the same input gives the same groups. Every stage here is a function, so this holds by construction and needs no lemma.

=== FILE: batch.dfy ===
/** Packaging the PRs and their diffs for the batch-analysis endpoint. */
module Batch {
  import opened Js
  import opened Model

  datatype RequestEntry = RequestEntry(title: string, body: string, diff: string)

  /** The JSON body posted to the analysis service. */
  datatype BatchRequest = BatchRequest(owner: string, repo: string, prs: seq<RequestEntry>)

  /** The diff sent for PR `index`: the aligned diff when the list is present,
      long enough and that entry is non-empty; the empty string otherwise. */
  function DiffAt(diffs: Option<seq<string>>, index: nat): string {
    if diffs.Some? && index < |diffs.value| && diffs.value[index] != "" then diffs.value[index] else ""
  }

  /** The request entries for `prs[from..]`; `from` is the index that
      `prs.map` hands to its callback, used to pick the aligned diff. */
  function Entries(prs: seq<PullRequest>, diffs: Option<seq<string>>, from: nat): (r: seq<RequestEntry>)
    requires from <= |prs|
    ensures |r| == |prs| - from
    ensures forall k :: 0 <= k < |r| ==>
      r[k].title == prs[from + k].title &&
      r[k].body == OrElse(prs[from + k].body, "") &&
      r[k].diff == DiffAt(diffs, from + k)
    decreases |prs| - from
  {
    if from == |prs| then []
    else [RequestEntry(prs[from].title, OrElse(prs[from].body, ""), DiffAt(diffs, from))] + Entries(prs, diffs, from + 1)
  }

  /** The batch request: one entry per PR, in PR order. A missing body
      becomes "", and so does a missing diff (no diff list, or a list too
      short to reach the PR). */
  function BuildRequest(cl: Changelog): (r: BatchRequest)
    ensures r.owner == cl.owner && r.repo == cl.repo
    ensures |r.prs| == |cl.prs|
    ensures forall i :: 0 <= i < |cl.prs| ==> r.prs[i].title == cl.prs[i].title
    ensures forall i :: 0 <= i < |cl.prs| ==>
      r.prs[i].body == (if cl.prs[i].body.Some? then cl.prs[i].body.value else "")
    ensures forall i :: 0 <= i < |cl.prs| ==>
      r.prs[i].diff == (if cl.diffs.Some? && i < |cl.diffs.value| then cl.diffs.value[i] else "")
  {
    BatchRequest(cl.owner, cl.repo, Entries(cl.prs, cl.diffs, 0))
  }

  /** When a diff is supplied for every PR, the request carries exactly the
      first `|prs|` diffs, in order. */
  lemma DiffsCarriedInOrder(cl: Changelog)
    requires cl.diffs.Some? && |cl.diffs.value| >= |cl.prs|
    ensures seq(|cl.prs|, i requires 0 <= i < |cl.prs| => BuildRequest(cl).prs[i].diff) == cl.diffs.value[..|cl.prs|]
  {
  }
}

=== FILE: entry.dfy ===
/** The display decisions of one changelog card: icon, heading, status
    chip, category chip, label chips and the two link targets. */
module ChangelogEntry {
  import opened Js
  import opened Model
  import opened Grouping

  datatype Icon = Architecture | BugReport | Build | Description | Help
  datatype ChipColor = Primary | Error | Success | Info | Default
  datatype Status = Merged | Closed

  /** The props a card receives. */
  datatype EntryProps = EntryProps(
    number: Option<int>,
    title: string,
    excerpt: string,
    category: string,
    author: Option<string>,
    url: Option<string>,
    createdAt: Option<string>,
    mergedAt: Option<string>,
    labels: seq<Label>)

  /** The icon that goes with a category group. */
  function IconOf(c: Category): Icon {
    match c
    case Feature => Architecture
    case Bugfix => BugReport
    case Improvement => Build
    case Documentation => Description
    case Other => Help
  }

  /** The chip colour that goes with a category group. */
  function ColorOf(c: Category): ChipColor {
    match c
    case Feature => Primary
    case Bugfix => Error
    case Improvement => Success
    case Documentation => Info
    case Other => Default
  }

  /** `getCategoryIcon`: a switch on `category.toLowerCase()`. The icon is
      the one of the group the lower-cased category would be sorted into. */
  function CategoryIcon(category: string): (icon: Icon)
    ensures icon == IconOf(CategoryOf(Lower(category)))
  {
    var key := Lower(category);
    if key == "feature" then Architecture
    else if key == "bugfix" then BugReport
    else if key == "improvement" then Build
    else if key == "documentation" then Description
    else Help
  }

  /** The category chip's colour: an exact, case-sensitive comparison, so
      it is the colour of the group the category itself is sorted into. */
  function CategoryColor(category: string): (color: ChipColor)
    ensures color == ColorOf(CategoryOf(category))
  {
    if category == "feature" then Primary
    else if category == "bugfix" then Error
    else if category == "improvement" then Success
    else if category == "documentation" then Info
    else Default
  }

  /** The icon does not depend on letter case. */
  lemma IconIgnoresCase(a: string, b: string)
    requires SameUpToCase(a, b)
    ensures CategoryIcon(a) == CategoryIcon(b)
  {
    SameUpToCaseLower(a, b);
  }

  /** The icon differs from the fallback exactly when the category spells
      one of the four known keys in some letter case. */
  lemma IconKnownIffKey(category: string)
    ensures CategoryIcon(category) != Help <==>
      exists c: Category :: c != Other && SameUpToCase(category, Key(c))
  {
    var key := Lower(category);
    if CategoryIcon(category) != Help {
      var c := CategoryOf(key);
      assert Key(c) == key;
      assert SameUpToCase(category, Key(c)) by {
        forall i | 0 <= i < |category| ensures LowerChar(category[i]) == LowerChar(Key(c)[i]) {
          assert LowerChar(key[i]) == key[i];
        }
      }
    }
    if c: Category :| c != Other && SameUpToCase(category, Key(c)) {
      SameUpToCaseLower(category, Key(c));
      assert Lower(Key(c)) == Key(c);
    }
  }

  /** For a card in one of the four named groups, icon and chip colour
      both follow the group. */
  lemma GroupedCardStyle(category: string, c: Category)
    requires CategoryOf(category) == c && c != Other
    ensures CategoryIcon(category) == IconOf(c)
    ensures CategoryColor(category) == ColorOf(c)
  {
    assert category == Key(c);
    assert Lower(Key(c)) == Key(c);
  }

  /** The two rules disagree on letter case: "Feature" gets the feature
      icon but the default chip colour (and is grouped under `other`). */
  lemma CaseMismatch()
    ensures CategoryIcon("Feature") == Architecture
    ensures CategoryColor("Feature") == Default
    ensures CategoryOf("Feature") == Other
  {
    assert Lower("Feature") == "feature";
  }

  /** `getStatusChip`: "Merged" when `mergedAt` is truthy, otherwise "Closed". */
  function StatusChip(mergedAt: Option<string>): (s: Status)
    ensures s == Merged <==> mergedAt.Some? && mergedAt.value != ""
  {
    if Truthy(mergedAt) then Merged else Closed
  }

  /** The text `${number}` produces. */
  function NumberText(number: Option<int>): string {
    if number.Some? then IntText(number.value) else "undefined"
  }

  /** The card heading: the title, or "PR #" and the number when the title is
      empty. Never empty, and the title itself when it is not. */
  function DisplayTitle(title: string, number: Option<int>): (heading: string)
    ensures heading != []
    ensures title != [] ==> heading == title
  {
    if title != "" then title else "PR #" + NumberText(number)
  }

  /** The fallback heading names the PR: its number reads back from the text. */
  lemma FallbackTitleNamesPr(number: int)
    ensures var heading := DisplayTitle("", Some(number));
      heading[..4] == "PR #" && ParseInt(heading[4..]) == Some(number)
  {
    var heading := DisplayTitle("", Some(number));
    assert heading[4..] == IntText(number);
  }

  /** The category chip's label: the category with its first character
      upper-cased and the rest as it is; no chip for an empty category. */
  function ChipLabel(category: string): (text: Option<string>)
    ensures text.Some? <==> category != []
    ensures text.Some? ==> |text.value| == |category| && text.value[1..] == category[1..]
    ensures text.Some? ==> !('a' <= text.value[0] <= 'z') && SameUpToCase(text.value, category)
    ensures text.Some? ==> text.value[0] == UpperChar(category[0])
  {
    if category == "" then None
    else
      var text := [UpperChar(category[0])] + category[1..];
      UpperKeepsLower(category[0]);
      assert forall i :: 1 <= i < |text| ==> text[i] == category[i];
      Some(text)
  }

  // ---------------------------------------------------------------------
  // Label chips and the text-colour threshold
  // ---------------------------------------------------------------------

  predicate IsHexDigit(c: char) {
    '0' <= c <= '9' || 'a' <= c <= 'f' || 'A' <= c <= 'F'
  }

  function HexValue(c: char): (v: nat)
    requires IsHexDigit(c)
    ensures v < 16
  {
    if '0' <= c <= '9' then c as int - '0' as int
    else if 'a' <= c <= 'f' then c as int - 'a' as int + 10
    else c as int - 'A' as int + 10
  }

  /** Index of the first '#' in `color`, or `|color|` when there is none. */
  function FirstHash(color: string): (i: nat)
    ensures i <= |color| && '#' !in color[..i]
    ensures i < |color| ==> color[i] == '#'
    ensures i == |color| ==> '#' !in color
  {
    if color == [] then 0
    else if color[0] == '#' then 0
    else
      var i := FirstHash(color[1..]);
      assert color[..i + 1] == [color[0]] + color[1..][..i];
      assert color == [color[0]] + color[1..];
      i + 1
  }

  /** Removing '#' from a label colour: a string pattern replaces its first
      occurrence only, so the result is the colour with its first '#' cut
      out, and a colour without '#' is left as it is. */
  function WithoutHash(color: string): (hex: string)
    ensures '#' !in color ==> hex == color
    ensures '#' in color ==>
      exists i :: 0 <= i < |color| && color[i] == '#' && '#' !in color[..i] && hex == color[..i] + color[i + 1..]
  {
    var i := FirstHash(color);
    if i < |color| then color[..i] + color[i + 1..] else color
  }

  /** The colours the threshold is defined on: after the first '#' is
      removed, six hex digits (anything after them is ignored). */
  predicate WellFormedColor(color: string) {
    var hex := WithoutHash(color);
    |hex| >= 6 && forall i :: 0 <= i < 6 ==> IsHexDigit(hex[i])
  }

  /** The colour channel held by the two hex digits at `at`. */
  function Channel(hex: string, at: nat): (v: nat)
    requires at + 2 <= |hex| && IsHexDigit(hex[at]) && IsHexDigit(hex[at + 1])
    ensures v < 256
    ensures v / 16 == HexValue(hex[at]) && v % 16 == HexValue(hex[at + 1])
  {
    16 * HexValue(hex[at]) + HexValue(hex[at + 1])
  }

  /** Perceived brightness: the channels weighted 299, 587 and 114 per mille,
      divided without rounding, as a JavaScript number division is. */
  function Brightness(r: nat, g: nat, b: nat): real {
    (r * 299 + g * 587 + b * 114) as real / 1000.0
  }

  /** `isLightColor`: the brightness exceeds 128. In integers: the weighted
      channel sum exceeds 128000. */
  function IsLightColor(color: string): (light: bool)
    requires WellFormedColor(color)
    ensures var hex := WithoutHash(color);
      light <==> Channel(hex, 0) * 299 + Channel(hex, 2) * 587 + Channel(hex, 4) * 114 > 128000
  {
    var hex := WithoutHash(color);
    Brightness(Channel(hex, 0), Channel(hex, 2), Channel(hex, 4)) > 128.0
  }

  /** The real-valued brightness test and the integer one agree. */
  lemma BrightnessThreshold(r: nat, g: nat, b: nat)
    ensures Brightness(r, g, b) > 128.0 <==> r * 299 + g * 587 + b * 114 > 128000
  {
  }

  /** Raising channels never turns a light colour dark: a colour each of
      whose channels is at least that of a light colour is light too. */
  lemma LightIsMonotone(light: string, brighter: string)
    requires WellFormedColor(light) && WellFormedColor(brighter)
    requires var x, y := WithoutHash(light), WithoutHash(brighter);
      Channel(x, 0) <= Channel(y, 0) && Channel(x, 2) <= Channel(y, 2) && Channel(x, 4) <= Channel(y, 4)
    requires IsLightColor(light)
    ensures IsLightColor(brighter)
  {
  }

  /** Mid grey sits exactly on the threshold and gets white text; one step
      brighter gets black text. */
  lemma GreyThreshold()
    ensures !IsLightColor("808080")
    ensures IsLightColor("818181")
  {
    var dark, light := "808080", "818181";
    assert '#' !in dark && '#' !in light;
    assert Channel(dark, 0) == 128 && Channel(dark, 2) == 128 && Channel(dark, 4) == 128;
    assert Channel(light, 0) == 129 && Channel(light, 2) == 129 && Channel(light, 4) == 129;
  }

  datatype LabelChip = LabelChip(text: string, background: string, foreground: string)

  /** The text colour on a label chip: black on light backgrounds. */
  function Foreground(color: string): (text: string)
    requires WellFormedColor(color)
    ensures text == "#000" <==> IsLightColor(color)
    ensures text == "#fff" <==> !IsLightColor(color)
  {
    if IsLightColor(color) then "#000" else "#fff"
  }

  /** One chip per label, in label order, on background `#<color>`, with
      black text exactly when the colour is light and white text otherwise. */
  function LabelChips(labels: seq<Label>): (chips: seq<LabelChip>)
    requires forall i :: 0 <= i < |labels| ==> WellFormedColor(labels[i].color)
    ensures |chips| == |labels|
    ensures forall i :: 0 <= i < |labels| ==>
      chips[i].text == labels[i].name && chips[i].background == "#" + labels[i].color
    ensures forall i :: 0 <= i < |labels| ==>
      (chips[i].foreground == "#000" <==> IsLightColor(labels[i].color)) &&
      (chips[i].foreground == "#fff" <==> !IsLightColor(labels[i].color))
  {
    seq(|labels|, i requires 0 <= i < |labels| && WellFormedColor(labels[i].color) =>
      LabelChip(labels[i].name, "#" + labels[i].color, Foreground(labels[i].color)))
  }

  // ---------------------------------------------------------------------
  // Links
  // ---------------------------------------------------------------------

  /** "View Changes" opens `${url}/files`. */
  function ChangesTarget(url: Option<string>): string {
    TemplateText(url) + "/files"
  }

  /** "View PR" opens `url` as it is. */
  function PrTarget(url: Option<string>): Option<string> {
    url
  }

  /** The changes link is the PR link followed by "/files". */
  lemma ChangesExtendPrLink(u: string)
    ensures var changes := ChangesTarget(Some(u));
      PrTarget(Some(u)) == Some(changes[..|u|]) && changes[|u|..] == "/files"
  {
  }

  // ---------------------------------------------------------------------
  // The whole card
  // ---------------------------------------------------------------------

  datatype Card = Card(
    icon: Icon,
    heading: string,
    author: Option<string>,
    createdAt: Option<string>,
    status: Status,
    chipLabel: Option<string>,
    chipColor: ChipColor,
    summary: Option<string>,
    labelChips: seq<LabelChip>,
    changesTarget: string,
    prTarget: Option<string>)

  predicate WellFormedLabels(labels: seq<Label>) {
    forall i :: 0 <= i < |labels| ==> WellFormedColor(labels[i].color)
  }

  /** The card for a set of props. Author, date and excerpt are shown only
      when truthy, as they are; the category chip only for a non-empty
      category. Icon and chip colour follow the group rules above, the
      status follows `mergedAt`, and both buttons open the PR's URL. */
  function RenderCard(p: EntryProps): (card: Card)
    requires WellFormedLabels(p.labels)
    ensures card.heading != [] && (p.title != [] ==> card.heading == p.title)
    ensures p.title == [] ==> card.heading == "PR #" + NumberText(p.number)
    ensures card.author.Some? <==> Truthy(p.author)
    ensures Truthy(p.author) ==> card.author == p.author
    ensures card.createdAt.Some? <==> Truthy(p.createdAt)
    ensures Truthy(p.createdAt) ==> card.createdAt == p.createdAt
    ensures card.summary.Some? <==> p.excerpt != []
    ensures p.excerpt != [] ==> card.summary == Some(p.excerpt)
    ensures card.status == Merged <==> Truthy(p.mergedAt)
    ensures card.icon == IconOf(CategoryOf(Lower(p.category)))
    ensures card.chipColor == ColorOf(CategoryOf(p.category))
    ensures card.chipLabel.Some? <==> p.category != []
    ensures card.chipLabel.Some? ==>
      && SameUpToCase(card.chipLabel.value, p.category)
      && |card.chipLabel.value| == |p.category|
      && card.chipLabel.value[0] == UpperChar(p.category[0])
      && !('a' <= card.chipLabel.value[0] <= 'z')
      && card.chipLabel.value[1..] == p.category[1..]
    ensures |card.labelChips| == |p.labels|
    ensures forall i :: 0 <= i < |p.labels| ==>
      && card.labelChips[i].text == p.labels[i].name
      && card.labelChips[i].background == "#" + p.labels[i].color
      && (card.labelChips[i].foreground == "#000" <==> IsLightColor(p.labels[i].color))
      && (card.labelChips[i].foreground == "#fff" <==> !IsLightColor(p.labels[i].color))
    ensures card.prTarget == p.url && card.changesTarget == TemplateText(p.url) + "/files"
  {
    Card(
      CategoryIcon(p.category),
      DisplayTitle(p.title, p.number),
      if Truthy(p.author) then p.author else None,
      if Truthy(p.createdAt) then p.createdAt else None,
      StatusChip(p.mergedAt),
      ChipLabel(p.category),
      CategoryColor(p.category),
      if p.excerpt != "" then Some(p.excerpt) else None,
      LabelChips(p.labels),
      ChangesTarget(p.url),
      PrTarget(p.url))
  }
}

=== FILE: grouping.dfy ===
/** Correlating analysis results with PRs by position, keeping the relevant
    ones and sorting them into the five category groups
    (`groupPRsByCategory` and the relevant count of the list component). */
module Grouping {
  import opened Js
  import opened Model

  /** The keys of the groups object. Any category string that is not one
      of them lands in `Other`. */
  datatype Category = Feature | Bugfix | Improvement | Documentation | Other

  /** The keys in the order the groups object (and the section list) declares them. */
  const Order: seq<Category> := [Feature, Bugfix, Improvement, Documentation, Other]

  function Key(c: Category): string {
    match c
    case Feature => "feature"
    case Bugfix => "bugfix"
    case Improvement => "improvement"
    case Documentation => "documentation"
    case Other => "other"
  }

  /** Position of a category in `Order`. */
  function Rank(c: Category): nat {
    match c
    case Feature => 0
    case Bugfix => 1
    case Improvement => 2
    case Documentation => 3
    case Other => 4
  }

  /** The group a category string is pushed to: `category in groups`
      decides between `groups[category]` and `groups.other`. The key set is
      exactly the five literal keys (the object's inherited properties are
      not modelled). */
  function CategoryOf(category: string): (c: Category)
    ensures c == Other || Key(c) == category
    ensures forall k: Category :: Key(k) == category ==> c == k
  {
    if category == "feature" then Feature
    else if category == "bugfix" then Bugfix
    else if category == "improvement" then Improvement
    else if category == "documentation" then Documentation
    else Other
  }

  /** Every key routes to its own group, and `Order` lists each category at its rank. */
  lemma KeyRoundTrip(c: Category)
    ensures CategoryOf(Key(c)) == c
    ensures Order[Rank(c)] == c
  {
  }

  // ---------------------------------------------------------------------
  // Correlation by position
  // ---------------------------------------------------------------------

  /** The enriched record for analysis index `i`: `changelog.prs[i]` (absent
      past the end of `prs`) with the result under `analysis`. */
  function Enrich(analysis: seq<AnalysisResult>, prs: seq<PullRequest>, i: nat): EnrichedPR
    requires i < |analysis|
  {
    EnrichedPR(if i < |prs| then Some(prs[i]) else None, analysis[i])
  }

  /** One enriched record per analysis result, in result order. */
  function Correlate(analysis: seq<AnalysisResult>, prs: seq<PullRequest>): (r: seq<EnrichedPR>)
    ensures |r| == |analysis|
    ensures forall i :: 0 <= i < |r| ==> r[i] == Enrich(analysis, prs, i)
    ensures forall i :: 0 <= i < |r| ==> r[i].analysis == analysis[i]
    ensures forall i :: 0 <= i < |r| ==> (r[i].pr.Some? <==> i < |prs|) && (i < |prs| ==> r[i].pr.value == prs[i])
  {
    seq(|analysis|, i requires 0 <= i < |analysis| => Enrich(analysis, prs, i))
  }

  /** The analysis results carried by a sequence of enriched records. */
  function Analyses(es: seq<EnrichedPR>): (r: seq<AnalysisResult>)
    ensures |r| == |es|
    ensures forall i :: 0 <= i < |es| ==> r[i] == es[i].analysis
  {
    seq(|es|, i requires 0 <= i < |es| => es[i].analysis)
  }

  /** The PRs carried by a sequence of enriched records. */
  function Prs(es: seq<EnrichedPR>): (r: seq<Option<PullRequest>>)
    ensures |r| == |es|
    ensures forall i :: 0 <= i < |es| ==> r[i] == es[i].pr
  {
    seq(|es|, i requires 0 <= i < |es| => es[i].pr)
  }

  /** The join loses nothing: the results come back out unchanged and, when
      the reply has exactly one result per PR, so do the PRs, each paired
      with the result at its own index. */
  lemma CorrelateAligned(analysis: seq<AnalysisResult>, prs: seq<PullRequest>)
    ensures Analyses(Correlate(analysis, prs)) == analysis
    ensures |analysis| == |prs| ==>
      Prs(Correlate(analysis, prs)) == seq(|prs|, i requires 0 <= i < |prs| => Some(prs[i]))
  {
  }

  /** A reply longer than `prs` is not cut short: a relevant result past
      the end of `prs` is still grouped, as a record without a PR, in the
      group its category selects. */
  lemma CorrelateMisaligned(analysis: seq<AnalysisResult>, prs: seq<PullRequest>, i: nat)
    requires |prs| <= i < |analysis| && analysis[i].relevant
    ensures EnrichedPR(None, analysis[i]) in GroupByCategory(analysis, prs).Bucket(CategoryOf(analysis[i].category))
  {
    var e := EnrichedPR(None, analysis[i]);
    assert Correlate(analysis, prs)[i] == e;
    GroupedAreRelevant(analysis, prs, CategoryOf(analysis[i].category), e);
  }

  // ---------------------------------------------------------------------
  // Relevance and categories
  // ---------------------------------------------------------------------

  /** Whether the record goes to group `c`. */
  predicate Keeps(c: Category, e: EnrichedPR) {
    e.analysis.relevant && CategoryOf(e.analysis.category) == c
  }

  /** The records of `es` that belong in group `c`, in their original order. */
  function Select(es: seq<EnrichedPR>, c: Category): seq<EnrichedPR> {
    if es == [] then []
    else (if Keeps(c, es[0]) then [es[0]] else []) + Select(es[1..], c)
  }

  /** The relevant records of `es`, in their original order. */
  function Relevant(es: seq<EnrichedPR>): seq<EnrichedPR> {
    if es == [] then []
    else (if es[0].analysis.relevant then [es[0]] else []) + Relevant(es[1..])
  }

  /** How many results are marked relevant (the count the list heading shows). */
  function RelevantCount(analysis: seq<AnalysisResult>): nat {
    if analysis == [] then 0
    else (if analysis[0].relevant then 1 else 0) + RelevantCount(analysis[1..])
  }

  lemma {:induction false} SelectSnoc(es: seq<EnrichedPR>, e: EnrichedPR, c: Category)
    ensures Select(es + [e], c) == Select(es, c) + (if Keeps(c, e) then [e] else [])
    decreases |es|
  {
    if es != [] {
      assert (es + [e])[1..] == es[1..] + [e];
      SelectSnoc(es[1..], e, c);
    }
  }

  lemma {:induction false} SelectMembers(es: seq<EnrichedPR>, c: Category, e: EnrichedPR)
    ensures e in Select(es, c) <==> e in es && Keeps(c, e)
    decreases |es|
  {
    if es != [] {
      SelectMembers(es[1..], c, e);
      assert es == [es[0]] + es[1..];
    }
  }

  /** `xs` is `ys` with some elements dropped and the rest in the same order. */
  ghost predicate IsSubsequence(xs: seq<EnrichedPR>, ys: seq<EnrichedPR>)
    decreases |ys|
  {
    if xs == [] then true
    else if ys == [] then false
    else (xs[0] == ys[0] && IsSubsequence(xs[1..], ys[1..])) || IsSubsequence(xs, ys[1..])
  }

  /** Selecting a group keeps the records' relative order (a stable partition). */
  lemma {:induction false} SelectIsSubsequence(es: seq<EnrichedPR>, c: Category)
    ensures IsSubsequence(Select(es, c), es)
    decreases |es|
  {
    if es != [] {
      SelectIsSubsequence(es[1..], c);
      var xs := Select(es, c);
      if Keeps(c, es[0]) {
        assert xs[0] == es[0] && xs[1..] == Select(es[1..], c);
      } else {
        assert xs == Select(es[1..], c);
      }
    }
  }

  /** The five groups together hold each relevant record exactly as often
      as the input does: nothing lost, nothing duplicated. */
  lemma {:induction false} SelectPartition(es: seq<EnrichedPR>)
    ensures multiset(Select(es, Feature)) + multiset(Select(es, Bugfix)) + multiset(Select(es, Improvement))
          + multiset(Select(es, Documentation)) + multiset(Select(es, Other))
         == multiset(Relevant(es))
    decreases |es|
  {
    if es != [] {
      SelectPartition(es[1..]);
    }
  }

  lemma {:induction false} RelevantLength(es: seq<EnrichedPR>)
    ensures |Relevant(es)| == RelevantCount(Analyses(es))
    decreases |es|
  {
    if es != [] {
      assert Analyses(es)[1..] == Analyses(es[1..]);
      RelevantLength(es[1..]);
    }
  }

  // ---------------------------------------------------------------------
  // The groups object
  // ---------------------------------------------------------------------

  datatype Groups = Groups(
    feature: seq<EnrichedPR>,
    bugfix: seq<EnrichedPR>,
    improvement: seq<EnrichedPR>,
    documentation: seq<EnrichedPR>,
    other: seq<EnrichedPR>)
  {
    function Bucket(c: Category): seq<EnrichedPR> {
      match c
      case Feature => feature
      case Bugfix => bugfix
      case Improvement => improvement
      case Documentation => documentation
      case Other => other
    }

    /** Appending a record to group `c`: only that group grows, by `e` at its end. */
    function Push(c: Category, e: EnrichedPR): (g: Groups)
      ensures g.Bucket(c) == Bucket(c) + [e]
      ensures forall k :: k != c ==> g.Bucket(k) == Bucket(k)
    {
      match c
      case Feature => this.(feature := feature + [e])
      case Bugfix => this.(bugfix := bugfix + [e])
      case Improvement => this.(improvement := improvement + [e])
      case Documentation => this.(documentation := documentation + [e])
      case Other => this.(other := other + [e])
    }

    /** All records in the groups, with multiplicity. */
    function Contents(): multiset<EnrichedPR> {
      multiset(feature) + multiset(bugfix) + multiset(improvement) + multiset(documentation) + multiset(other)
    }

    function Size(): nat {
      |feature| + |bugfix| + |improvement| + |documentation| + |other|
    }
  }

  const NoGroups := Groups([], [], [], [], [])

  /** `groupPRsByCategory`: the results are visited in index order; a
      relevant one is joined to the PR at the same index and pushed to the
      group its category names, or to `other`. Each group is exactly the
      records of the positional join that belong in it, in index order. */
  function GroupByCategory(analysis: seq<AnalysisResult>, prs: seq<PullRequest>): (g: Groups)
    ensures forall c :: g.Bucket(c) == Select(Correlate(analysis, prs), c)
    decreases |analysis|
  {
    if analysis == [] then NoGroups
    else
      var n := |analysis| - 1;
      var e := Enrich(analysis, prs, n);
      var g := GroupByCategory(analysis[..n], prs);
      assert Correlate(analysis, prs) == Correlate(analysis[..n], prs) + [e];
      forall c: Category
        ensures Select(Correlate(analysis, prs), c) == Select(Correlate(analysis[..n], prs), c) + (if Keeps(c, e) then [e] else [])
      {
        SelectSnoc(Correlate(analysis[..n], prs), e, c);
      }
      if e.analysis.relevant then g.Push(CategoryOf(e.analysis.category), e) else g
  }

  /** Only relevant results appear, each in the group its category selects. */
  lemma GroupedAreRelevant(analysis: seq<AnalysisResult>, prs: seq<PullRequest>, c: Category, e: EnrichedPR)
    ensures e in GroupByCategory(analysis, prs).Bucket(c) <==>
      e in Correlate(analysis, prs) && e.analysis.relevant && CategoryOf(e.analysis.category) == c
  {
    SelectMembers(Correlate(analysis, prs), c, e);
  }

  /** The record of every relevant result lands in exactly one group: the
      one its category selects; an unknown category means `Other`. */
  lemma RelevantInExactlyOneGroup(analysis: seq<AnalysisResult>, prs: seq<PullRequest>, i: nat)
    requires i < |analysis| && analysis[i].relevant
    ensures var g := GroupByCategory(analysis, prs);
      var e := Enrich(analysis, prs, i);
      && e in g.Bucket(CategoryOf(analysis[i].category))
      && (forall k :: k != CategoryOf(analysis[i].category) ==> e !in g.Bucket(k))
  {
    var e := Enrich(analysis, prs, i);
    assert Correlate(analysis, prs)[i] == e;
    forall k: Category {
      GroupedAreRelevant(analysis, prs, k, e);
    }
  }

  /** The groups hold exactly the relevant records of the join, each as
      often as it occurs there. */
  lemma GroupsPartitionRelevant(analysis: seq<AnalysisResult>, prs: seq<PullRequest>)
    ensures GroupByCategory(analysis, prs).Contents() == multiset(Relevant(Correlate(analysis, prs)))
  {
    var es := Correlate(analysis, prs);
    SelectPartition(es);
    SelectedContents(GroupByCategory(analysis, prs), es);
  }

  lemma SelectedContents(g: Groups, es: seq<EnrichedPR>)
    requires forall c :: g.Bucket(c) == Select(es, c)
    ensures g.Contents() == multiset(Select(es, Feature)) + multiset(Select(es, Bugfix))
      + multiset(Select(es, Improvement)) + multiset(Select(es, Documentation)) + multiset(Select(es, Other))
  {
    assert g.feature == g.Bucket(Feature) && g.bugfix == g.Bucket(Bugfix) && g.improvement == g.Bucket(Improvement);
    assert g.documentation == g.Bucket(Documentation) && g.other == g.Bucket(Other);
  }

  /** The group sizes add up to the relevant count used for the empty state. */
  lemma GroupSizesMatchRelevantCount(analysis: seq<AnalysisResult>, prs: seq<PullRequest>)
    ensures GroupByCategory(analysis, prs).Size() == RelevantCount(analysis)
  {
    var g := GroupByCategory(analysis, prs);
    var es := Correlate(analysis, prs);
    GroupsPartitionRelevant(analysis, prs);
    assert |g.Contents()| == g.Size();
    assert |multiset(Relevant(es))| == |Relevant(es)|;
    RelevantLength(es);
    CorrelateAligned(analysis, prs);
  }

  /** The relevant count is zero exactly when every group is empty. */
  lemma NoRelevantIffAllGroupsEmpty(analysis: seq<AnalysisResult>, prs: seq<PullRequest>)
    ensures RelevantCount(analysis) == 0 <==> forall c :: GroupByCategory(analysis, prs).Bucket(c) == []
  {
    GroupSizesMatchRelevantCount(analysis, prs);
    EmptyIffNoneInAnyGroup(GroupByCategory(analysis, prs));
  }

  lemma EmptyIffNoneInAnyGroup(g: Groups)
    ensures g.Size() == 0 <==> forall c :: g.Bucket(c) == []
  {
    if g.Size() != 0 {
      assert g.Bucket(Feature) != [] || g.Bucket(Bugfix) != [] || g.Bucket(Improvement) != []
        || g.Bucket(Documentation) != [] || g.Bucket(Other) != [];
    }
  }

  /** Without PRs every record of the join lacks its PR. */
  lemma JoinWithoutPrs(analysis: seq<AnalysisResult>, e: EnrichedPR)
    requires e in Correlate(analysis, [])
    ensures e.pr.None?
  {
  }

  /** Within each group the records keep the order of their analysis indices. */
  lemma GroupsAreStable(analysis: seq<AnalysisResult>, prs: seq<PullRequest>, c: Category)
    ensures IsSubsequence(GroupByCategory(analysis, prs).Bucket(c), Correlate(analysis, prs))
  {
    SelectIsSubsequence(Correlate(analysis, prs), c);
  }
}

=== FILE: js.dfy ===
/** The few JavaScript value rules the two components rely on: optional
    values (`undefined`/`null`), truthiness of strings, ASCII case mapping,
    and the decimal text a template literal produces for an integer below
    10^21 in magnitude (larger numbers print in exponent form). */
module Js {

  /** `None` stands for `undefined` or `null`. */
  datatype Option<+T> = None | Some(value: T)

  /** A string value is truthy exactly when it is present and non-empty. */
  predicate Truthy(s: Option<string>) {
    s.Some? && s.value != ""
  }

  /** A logical-or default: the string when it is truthy, else `fallback`. */
  function OrElse(s: Option<string>, fallback: string): string {
    if Truthy(s) then s.value else fallback
  }

  /** The text `${s}` produces: an absent value prints as "undefined". */
  function TemplateText(s: Option<string>): string {
    if s.Some? then s.value else "undefined"
  }

  // ---------------------------------------------------------------------
  // ASCII case mapping (`toLowerCase` / `toUpperCase` on ASCII letters)
  // ---------------------------------------------------------------------

  function LowerChar(c: char): char {
    if 'A' <= c <= 'Z' then (c as int + 32) as char else c
  }

  function UpperChar(c: char): char {
    if 'a' <= c <= 'z' then (c as int - 32) as char else c
  }

  /** `s.toLowerCase()`: the same length, every character lower-cased. */
  function Lower(s: string): (r: string)
    ensures |r| == |s|
    ensures forall i :: 0 <= i < |s| ==> r[i] == LowerChar(s[i])
  {
    seq(|s|, i requires 0 <= i < |s| => LowerChar(s[i]))
  }

  /** Two strings that a case-insensitive comparison cannot tell apart. */
  predicate SameUpToCase(a: string, b: string) {
    |a| == |b| && forall i :: 0 <= i < |a| ==> LowerChar(a[i]) == LowerChar(b[i])
  }

  /** Strings equal up to case have the same lower-case form. */
  lemma SameUpToCaseLower(a: string, b: string)
    requires SameUpToCase(a, b)
    ensures Lower(a) == Lower(b)
  {
    assert forall i :: 0 <= i < |a| ==> Lower(a)[i] == Lower(b)[i];
  }

  /** Upper-casing a character does not change its lower-case form. */
  lemma UpperKeepsLower(c: char)
    ensures LowerChar(UpperChar(c)) == LowerChar(c)
  {
  }

  // ---------------------------------------------------------------------
  // Decimal text of an integer (`${n}` for an integral number)
  // ---------------------------------------------------------------------

  predicate IsDigit(c: char) {
    '0' <= c <= '9'
  }

  predicate AllDigits(s: string) {
    forall i :: 0 <= i < |s| ==> IsDigit(s[i])
  }

  function DigitChar(d: nat): (c: char)
    requires d < 10
    ensures IsDigit(c)
  {
    "0123456789"[d]
  }

  function DigitValue(c: char): (d: nat)
    requires IsDigit(c)
    ensures d < 10
  {
    c as int - '0' as int
  }

  /** The value of a digit string, most significant digit first. */
  function DigitsValue(s: string): nat
    requires AllDigits(s)
  {
    if s == [] then 0 else DigitsValue(s[..|s| - 1]) * 10 + DigitValue(s[|s| - 1])
  }

  /** Decimal digits of `n`, most significant first, without leading zeros. */
  function NatText(n: nat): (r: string)
    ensures r != []
    ensures AllDigits(r)
    ensures |r| > 1 ==> r[0] != '0'
    ensures r[0] == '0' <==> n == 0
  {
    if n < 10 then [DigitChar(n)] else NatText(n / 10) + [DigitChar(n % 10)]
  }

  lemma {:induction false} NatTextValue(n: nat)
    ensures DigitsValue(NatText(n)) == n
  {
    if n >= 10 {
      var r := NatText(n);
      assert r[..|r| - 1] == NatText(n / 10);
      NatTextValue(n / 10);
    }
  }

  /** Reads back canonical integer text: an optional '-' and then digits. */
  function ParseInt(s: string): Option<int> {
    if |s| > 1 && s[0] == '-' && AllDigits(s[1..]) then Some(0 - DigitsValue(s[1..]) as int)
    else if |s| > 0 && AllDigits(s) then Some(DigitsValue(s))
    else None
  }

  /** `${n}` for an integer `n` below 10^21 in magnitude: canonical decimal
      text (a '-' only for a negative number, no leading zero) that reads
      back as `n`. */
  function IntText(n: int): (r: string)
    ensures r != []
    ensures ParseInt(r) == Some(n)
    ensures n >= 0 ==> AllDigits(r) && (|r| > 1 ==> r[0] != '0')
    ensures n < 0 ==> |r| > 1 && r[0] == '-' && AllDigits(r[1..]) && r[1] != '0'
  {
    if n < 0 then
      NatTextValue(-n);
      var r := "-" + NatText(-n);
      assert r[1..] == NatText(-n);
      r
    else
      NatTextValue(n);
      NatText(n)
  }

  /** Different integers print differently. */
  lemma IntTextInjective(m: int, n: int)
    requires IntText(m) == IntText(n)
    ensures m == n
  {
  }
}

=== FILE: list.dfy ===
/** The list component: its state (loading flag, error, analysis reply),
    one run of its effect for a changelog and a service outcome, and the
    choice between the loading, error, empty and populated views. */
module ChangelogList {
  import opened Js
  import opened Model
  import opened Grouping
  import ChangelogEntry

  // ---------------------------------------------------------------------
  // Sections
  // ---------------------------------------------------------------------

  datatype Section = Section(category: Category, title: string, entries: seq<EnrichedPR>)

  /** Section headings of `categoryConfig`. */
  function Title(c: Category): string {
    match c
    case Feature => "\U{2728} New Features"
    case Bugfix => "\U{1F41B} Bug Fixes"
    case Improvement => "\U{1F680} Improvements"
    case Documentation => "\U{1F4DA} Documentation"
    case Other => "\U{1F504} Other Changes"
  }

  predicate RanksIncrease(cats: seq<Category>) {
    forall i, j :: 0 <= i < j < |cats| ==> Rank(cats[i]) < Rank(cats[j])
  }

  /** The sections for `cats`, in that order, skipping empty groups. */
  function SectionsFor(g: Groups, cats: seq<Category>): seq<Section> {
    if cats == [] then []
    else
      var rest := SectionsFor(g, cats[1..]);
      if g.Bucket(cats[0]) == [] then rest
      else [Section(cats[0], Title(cats[0]), g.Bucket(cats[0]))] + rest
  }

  /** Each section holds a non-empty group of `cats` under its heading. */
  lemma {:induction false} SectionsForShape(g: Groups, cats: seq<Category>)
    ensures forall i :: 0 <= i < |SectionsFor(g, cats)| ==>
      var sec := SectionsFor(g, cats)[i];
      sec.category in cats && sec.entries == g.Bucket(sec.category) && sec.entries != [] && sec.title == Title(sec.category)
    decreases |cats|
  {
    if cats != [] {
      SectionsForShape(g, cats[1..]);
      var rest := SectionsFor(g, cats[1..]);
      if g.Bucket(cats[0]) != [] {
        var r := SectionsFor(g, cats);
        assert forall i :: 1 <= i < |r| ==> r[i] == rest[i - 1];
      }
    }
  }

  /** Every non-empty group of `cats` gets a section. */
  lemma {:induction false} SectionsForComplete(g: Groups, cats: seq<Category>, c: Category)
    requires c in cats && g.Bucket(c) != []
    ensures exists i :: 0 <= i < |SectionsFor(g, cats)| && SectionsFor(g, cats)[i].category == c
    decreases |cats|
  {
    var r := SectionsFor(g, cats);
    var rest := SectionsFor(g, cats[1..]);
    if c == cats[0] {
      assert r[0].category == c;
    } else {
      SectionsForComplete(g, cats[1..], c);
      var i :| 0 <= i < |rest| && rest[i].category == c;
      if g.Bucket(cats[0]) == [] {
        assert r[i].category == c;
      } else {
        assert r[i + 1].category == c;
      }
    }
  }

  /** Sections come in the order of `cats`. */
  lemma {:induction false} SectionsForOrdered(g: Groups, cats: seq<Category>)
    requires RanksIncrease(cats)
    ensures forall i, j :: 0 <= i < j < |SectionsFor(g, cats)| ==>
      Rank(SectionsFor(g, cats)[i].category) < Rank(SectionsFor(g, cats)[j].category)
    decreases |cats|
  {
    if cats != [] {
      SectionsForOrdered(g, cats[1..]);
      SectionsForShape(g, cats[1..]);
      var rest := SectionsFor(g, cats[1..]);
      if g.Bucket(cats[0]) != [] {
        var r := SectionsFor(g, cats);
        forall i, j | 0 <= i < j < |r| ensures Rank(r[i].category) < Rank(r[j].category) {
          assert r[j] == rest[j - 1];
          if i == 0 {
            var k :| 0 <= k < |cats[1..]| && cats[1..][k] == rest[j - 1].category;
            assert cats[k + 1] == rest[j - 1].category;
          } else {
            assert r[i] == rest[i - 1];
          }
        }
      }
    }
  }

  /** The populated list: the non-empty groups, each under its heading, in
      the fixed order feature, bugfix, improvement, documentation, other. */
  function Sections(g: Groups): (r: seq<Section>)
    ensures forall i :: 0 <= i < |r| ==>
      r[i].entries == g.Bucket(r[i].category) && r[i].entries != [] && r[i].title == Title(r[i].category)
    ensures forall i, j :: 0 <= i < j < |r| ==> Rank(r[i].category) < Rank(r[j].category)
    ensures forall c: Category :: g.Bucket(c) != [] <==> exists i :: 0 <= i < |r| && r[i].category == c
  {
    var r := SectionsFor(g, Order);
    SectionsForShape(g, Order);
    SectionsForOrdered(g, Order);
    forall c: Category | g.Bucket(c) != [] ensures exists i :: 0 <= i < |r| && r[i].category == c {
      KeyRoundTrip(c);
      SectionsForComplete(g, Order, c);
    }
    r
  }

  /** The props each entry of a section hands to its card: title, excerpt
      and category from the analysis, everything else from the PR. An entry
      without a PR passes `undefined` for the PR's fields, so `labels` takes
      its default `[]`. */
  function EntryFor(e: EnrichedPR): (p: ChangelogEntry.EntryProps)
    ensures p.title == e.analysis.changelogTitle && p.excerpt == e.analysis.excerpt
    ensures p.category == e.analysis.category
    ensures e.pr.Some? ==> p.number == Some(e.pr.value.number) && p.url == Some(e.pr.value.htmlUrl)
    ensures e.pr.Some? ==>
      && p.author == e.pr.value.author
      && p.createdAt == e.pr.value.createdAt
      && p.mergedAt == e.pr.value.mergedAt
      && p.labels == e.pr.value.labels
    ensures e.pr.None? ==>
      p.number.None? && p.url.None? && p.author.None? && p.createdAt.None? && p.mergedAt.None? && p.labels == []
  {
    match e.pr
    case Some(pr) =>
      ChangelogEntry.EntryProps(Some(pr.number), e.analysis.changelogTitle, e.analysis.excerpt,
        e.analysis.category, pr.author, Some(pr.htmlUrl), pr.createdAt, pr.mergedAt, pr.labels)
    case None =>
      ChangelogEntry.EntryProps(None, e.analysis.changelogTitle, e.analysis.excerpt,
        e.analysis.category, None, None, None, None, [])
  }

  /** A listed card shows its PR: the status chip follows the PR's merge
      date, the label chips its labels, the author line its login, and both
      buttons open its page. Only heading, excerpt and category come from
      the analysis, and an empty heading falls back to the PR's number. */
  lemma ListedCardShowsPr(e: EnrichedPR)
    requires e.pr.Some? && ChangelogEntry.WellFormedLabels(e.pr.value.labels)
    ensures var pr := e.pr.value;
      var card := ChangelogEntry.RenderCard(EntryFor(e));
      && (card.status == ChangelogEntry.Merged <==> Truthy(pr.mergedAt))
      && (card.author.Some? <==> Truthy(pr.author))
      && (Truthy(pr.author) ==> card.author == pr.author)
      && |card.labelChips| == |pr.labels|
      && (forall i :: 0 <= i < |pr.labels| ==> card.labelChips[i].text == pr.labels[i].name)
      && card.prTarget == Some(pr.htmlUrl)
      && card.changesTarget == pr.htmlUrl + "/files"
      && (e.analysis.changelogTitle != "" ==> card.heading == e.analysis.changelogTitle)
      && (e.analysis.changelogTitle == "" ==> card.heading == "PR #" + IntText(pr.number))
  {
  }

  /** A result joined to no PR (one beyond the end of the PR list) whose
      title is empty: the card reads "PR #undefined", is closed, shows no
      author, date or labels, and "View Changes" opens "undefined/files". */
  lemma ExtraResultCard(e: EnrichedPR)
    requires e.pr.None? && e.analysis.changelogTitle == ""
    ensures var card := ChangelogEntry.RenderCard(EntryFor(e));
      && card.heading == "PR #undefined"
      && card.status == ChangelogEntry.Closed
      && card.author.None? && card.createdAt.None? && card.labelChips == []
      && card.prTarget.None?
      && card.changesTarget == "undefined/files"
  {
  }

  // ---------------------------------------------------------------------
  // Component state and one run of the effect
  // ---------------------------------------------------------------------

  /** `loading`, `error` and `analyzedPRs`. */
  datatype ListState = ListState(loading: bool, error: Option<string>, analyzed: seq<AnalysisResult>)

  /** The state on mount. */
  const Mounted := ListState(true, None, [])

  /** What the request ends with: a response, or an exception (network
      failure, unreadable body) with its message. */
  datatype Outcome = Response(status: int, data: seq<AnalysisResult>) | Thrown(message: string)

  /** `response.ok` */
  predicate StatusOk(status: int) {
    200 <= status <= 299
  }

  const ErrorPrefix := "Failed to analyze PRs: "

  /** The start of the message shown for a non-ok status. */
  const HttpErrorLead := "Failed to analyze PRs: HTTP error! Status: "

  /** The message of the error thrown for a non-ok status. */
  function HttpErrorText(status: int): string {
    "HTTP error! Status: " + IntText(status)
  }

  /** The effect fetches only for a changelog with at least one PR. */
  predicate Fetches(cl: Changelog) {
    |cl.prs| > 0
  }

  /** The state while the effect's request is in flight; without PRs the
      effect only clears the loading flag. */
  function Start(s: ListState, cl: Changelog): (r: ListState)
    ensures r.loading <==> Fetches(cl)
    ensures r.error == s.error && r.analyzed == s.analyzed
  {
    s.(loading := Fetches(cl))
  }

  /** The state once the request settles: an ok response replaces the
      results, anything else sets the error; neither clears the other. */
  function Settle(s: ListState, o: Outcome): ListState {
    match o
    case Response(status, data) =>
      if StatusOk(status) then s.(analyzed := data, loading := false)
      else s.(error := Some(ErrorPrefix + HttpErrorText(status)), loading := false)
    case Thrown(message) =>
      s.(error := Some(ErrorPrefix + message), loading := false)
  }

  /** One run of the effect for `cl`: the service's reply to the request is
      the outcome `o`, which matters only when a request is sent at all. The
      request's contents are `Batch.BuildRequest(cl)` and play no part in
      the state. */
  function Run(s: ListState, cl: Changelog, o: Outcome): (r: ListState)
    ensures !r.loading
    ensures !Fetches(cl) ==> r.error == s.error && r.analyzed == s.analyzed
    ensures Fetches(cl) && o.Response? && StatusOk(o.status) ==> r.analyzed == o.data && r.error == s.error
    ensures Fetches(cl) && !(o.Response? && StatusOk(o.status)) ==> r.analyzed == s.analyzed && Truthy(r.error)
    ensures Fetches(cl) && o.Thrown? ==> r.error == Some(ErrorPrefix + o.message)
    ensures Truthy(s.error) ==> Truthy(r.error)
  {
    var pending := Start(s, cl);
    if pending.loading then Settle(pending, o) else pending
  }

  /** Without PRs nothing is sent: the outcome plays no part. */
  lemma NoRequestWithoutPrs(s: ListState, cl: Changelog, o1: Outcome, o2: Outcome)
    requires !Fetches(cl)
    ensures Run(s, cl, o1) == Run(s, cl, o2) == s.(loading := false)
  {
  }

  /** A non-ok status becomes the error "Failed to analyze PRs: HTTP error!
      Status: <n>", and the status reads back from the message. */
  lemma HttpErrorMessage(s: ListState, cl: Changelog, status: int, data: seq<AnalysisResult>)
    requires Fetches(cl) && !StatusOk(status)
    ensures Run(s, cl, Response(status, data)).error == Some(HttpErrorLead + IntText(status))
    ensures ParseInt(Run(s, cl, Response(status, data)).error.value[|HttpErrorLead|..]) == Some(status)
  {
    var text := IntText(status);
    assert Run(s, cl, Response(status, data)) == Settle(Start(s, cl), Response(status, data));
    calc {
      ErrorPrefix + HttpErrorText(status);
      ErrorPrefix + ("HTTP error! Status: " + text);
      (ErrorPrefix + "HTTP error! Status: ") + text;
      { assert ErrorPrefix + "HTTP error! Status: " == HttpErrorLead; }
      HttpErrorLead + text;
    }
    assert (HttpErrorLead + text)[|HttpErrorLead|..] == text;
  }

  // ---------------------------------------------------------------------
  // The rendered view
  // ---------------------------------------------------------------------

  datatype View = Loading | Failed(message: string) | Empty | Populated(sections: seq<Section>)

  /** The render: loading first, then a truthy error, then the empty state
      when no result is relevant, else the sections of the groups built
      against the current `prs`. */
  function Render(s: ListState, prs: seq<PullRequest>): (v: View)
    ensures v.Loading? <==> s.loading
    ensures v.Failed? <==> !s.loading && Truthy(s.error)
    ensures v.Failed? ==> v.message == s.error.value
    ensures v.Empty? <==> !s.loading && !Truthy(s.error) && forall c :: GroupByCategory(s.analyzed, prs).Bucket(c) == []
    ensures v.Populated? ==> v.sections == Sections(GroupByCategory(s.analyzed, prs)) && v.sections != []
  {
    NoRelevantIffAllGroupsEmpty(s.analyzed, prs);
    if s.loading then Loading
    else if Truthy(s.error) then Failed(s.error.value)
    else if RelevantCount(s.analyzed) == 0 then Empty
    else
      Populated(Sections(GroupByCategory(s.analyzed, prs)))
  }

  /** The populated view lists every relevant result exactly once: the
      section sizes add up to the relevant count. */
  lemma PopulatedCountsRelevant(s: ListState, prs: seq<PullRequest>)
    requires Render(s, prs).Populated?
    ensures SectionsSize(Render(s, prs).sections) == RelevantCount(s.analyzed)
  {
    var g := GroupByCategory(s.analyzed, prs);
    GroupSizesMatchRelevantCount(s.analyzed, prs);
    SectionsHoldAllGrouped(g);
    assert Render(s, prs).sections == SectionsFor(g, Order);
  }

  /** The sections of the groups hold as many entries as the groups do. */
  lemma SectionsHoldAllGrouped(g: Groups)
    ensures SectionsSize(SectionsFor(g, Order)) == g.Size()
  {
    SectionsSizeIsGroupSize(g, Order);
    GroupsSizeInOrder(g);
  }

  /** The tails of `Order`, each one category shorter than the last; the
      unfoldings over `Order` below step through them. */
  lemma OrderTails()
    ensures Order[1..] == [Bugfix, Improvement, Documentation, Other]
    ensures [Bugfix, Improvement, Documentation, Other][1..] == [Improvement, Documentation, Other]
    ensures [Improvement, Documentation, Other][1..] == [Documentation, Other]
    ensures [Documentation, Other][1..] == [Other]
    ensures [Other][1..] == []
  {
  }

  lemma GroupsSizeInOrder(g: Groups)
    ensures GroupsSize(g, Order) == g.Size()
  {
    OrderTails();
    assert GroupsSize(g, [Other]) == |g.other|;
    assert GroupsSize(g, [Documentation, Other]) == |g.documentation| + |g.other|;
    assert GroupsSize(g, [Improvement, Documentation, Other]) == |g.improvement| + |g.documentation| + |g.other|;
  }

  function SectionsSize(sections: seq<Section>): nat {
    if sections == [] then 0 else |sections[0].entries| + SectionsSize(sections[1..])
  }

  lemma {:induction false} SectionsSizeIsGroupSize(g: Groups, cats: seq<Category>)
    requires RanksIncrease(cats)
    ensures SectionsSize(SectionsFor(g, cats)) == GroupsSize(g, cats)
    decreases |cats|
  {
    if cats != [] {
      SectionsSizeIsGroupSize(g, cats[1..]);
      var rest := SectionsFor(g, cats[1..]);
      if g.Bucket(cats[0]) != [] {
        assert ([Section(cats[0], Title(cats[0]), g.Bucket(cats[0]))] + rest)[1..] == rest;
      }
    }
  }

  function GroupsSize(g: Groups, cats: seq<Category>): nat {
    if cats == [] then 0 else |g.Bucket(cats[0])| + GroupsSize(g, cats[1..])
  }

  /** Cards in the four named sections carry that section's icon and chip
      colour; cards under "Other Changes" always get the default chip colour
      (their icon may still be a named one, see `CaseMismatch`). */
  lemma SectionCardsMatchSection(s: ListState, prs: seq<PullRequest>)
    ensures var v := Render(s, prs);
      v.Populated? ==>
        forall i, j :: 0 <= i < |v.sections| && 0 <= j < |v.sections[i].entries| ==>
          var card := EntryFor(v.sections[i].entries[j]);
          && ChangelogEntry.CategoryColor(card.category) == ChangelogEntry.ColorOf(v.sections[i].category)
          && (v.sections[i].category != Other ==>
                ChangelogEntry.CategoryIcon(card.category) == ChangelogEntry.IconOf(v.sections[i].category))
  {
    var v := Render(s, prs);
    if v.Populated? {
      forall i, j | 0 <= i < |v.sections| && 0 <= j < |v.sections[i].entries|
        ensures var card := EntryFor(v.sections[i].entries[j]);
          && ChangelogEntry.CategoryColor(card.category) == ChangelogEntry.ColorOf(v.sections[i].category)
          && (v.sections[i].category != Other ==>
                ChangelogEntry.CategoryIcon(card.category) == ChangelogEntry.IconOf(v.sections[i].category))
      {
        var sec := v.sections[i];
        var e := sec.entries[j];
        GroupedAreRelevant(s.analyzed, prs, sec.category, e);
        if sec.category != Other {
          ChangelogEntry.GroupedCardStyle(e.analysis.category, sec.category);
        }
      }
    }
  }

  // ---------------------------------------------------------------------
  // Successive runs
  // ---------------------------------------------------------------------

  datatype Step = Step(changelog: Changelog, outcome: Outcome)

  /** The state after the effect ran once per step. */
  function Replay(s: ListState, steps: seq<Step>): ListState
    decreases |steps|
  {
    if steps == [] then s else Replay(Run(s, steps[0].changelog, steps[0].outcome), steps[1..])
  }

  /** Nothing resets the error: after a failure, once each later run has
      completed, the render is the error view again, whatever the later
      changelogs and outcomes. (While a later request is in flight the
      loading view takes precedence, see `RequestInFlightShowsLoading`.) */
  lemma {:induction false} ErrorPersists(s: ListState, steps: seq<Step>, prs: seq<PullRequest>)
    requires Truthy(s.error) && steps != []
    ensures Render(Replay(s, steps), prs).Failed?
    decreases |steps|
  {
    var next := Run(s, steps[0].changelog, steps[0].outcome);
    if |steps| > 1 {
      ErrorPersists(next, steps[1..], prs);
    }
  }

  /** While a request is in flight the loading view is shown, whatever the
      error or the earlier reply. */
  lemma RequestInFlightShowsLoading(s: ListState, cl: Changelog, prs: seq<PullRequest>)
    requires Fetches(cl)
    ensures Render(Start(s, cl), prs) == Loading
  {
  }

  /** A later run without PRs shows the empty state exactly when the
      earlier reply (still in place) had no relevant result. */
  lemma EmptyRunShowsEmptyIffNoneRelevant(s: ListState, cl: Changelog, o: Outcome)
    requires !Fetches(cl) && !Truthy(s.error)
    ensures Render(Run(s, cl, o), cl.prs) == Empty <==> RelevantCount(s.analyzed) == 0
  {
    NoRelevantIffAllGroupsEmpty(s.analyzed, cl.prs);
  }

  /** Two changelogs without PRs in a row still show the empty state. */
  lemma TwoEmptyRunsShowEmpty(cl1: Changelog, o1: Outcome, cl2: Changelog, o2: Outcome)
    requires !Fetches(cl1) && !Fetches(cl2)
    ensures Render(Run(Run(Mounted, cl1, o1), cl2, o2), cl2.prs) == Empty
  {
    EmptyRunShowsEmptyIffNoneRelevant(Run(Mounted, cl1, o1), cl2, o2);
  }

  /** A run without PRs keeps the previous reply: its relevant results are
      still listed, now joined to no PR at all. */
  lemma StaleResultsSurviveEmptyRun(s: ListState, cl: Changelog, o: Outcome)
    requires !Fetches(cl) && !Truthy(s.error) && RelevantCount(s.analyzed) > 0
    ensures var v := Render(Run(s, cl, o), cl.prs);
      v.Populated? && forall i, j :: 0 <= i < |v.sections| && 0 <= j < |v.sections[i].entries| ==>
        v.sections[i].entries[j].pr.None?
  {
    var st := Run(s, cl, o);
    assert st == s.(loading := false) && cl.prs == [];
    var v := Render(st, []);
    var g := GroupByCategory(s.analyzed, []);
    NoRelevantIffAllGroupsEmpty(s.analyzed, []);
    assert v.Populated?;
    forall i, j | 0 <= i < |v.sections| && 0 <= j < |v.sections[i].entries|
      ensures v.sections[i].entries[j].pr.None?
    {
      var e := v.sections[i].entries[j];
      assert e in g.Bucket(v.sections[i].category);
      GroupedAreRelevant(s.analyzed, [], v.sections[i].category, e);
      JoinWithoutPrs(s.analyzed, e);
    }
  }

  // ---------------------------------------------------------------------
  // Scenarios
  // ---------------------------------------------------------------------

  const SomePr := PullRequest(1, "Add X", Some("body"), Some("dev"), "https://example.org/pr/1", None, Some("2024-01-01"), [])

  /** A changelog without PRs shows the empty state on the first run. */
  lemma NoPrsShowsEmpty(cl: Changelog, o: Outcome)
    requires !Fetches(cl)
    ensures Render(Run(Mounted, cl, o), cl.prs) == Empty
  {
    NoRelevantIffAllGroupsEmpty([], cl.prs);
  }

  /** An HTTP 500 reply shows the error naming status 500. */
  lemma ServerErrorShowsStatus(cl: Changelog, data: seq<AnalysisResult>)
    requires Fetches(cl)
    ensures Render(Run(Mounted, cl, Response(500, data)), cl.prs)
      == Failed("Failed to analyze PRs: HTTP error! Status: 500")
  {
    assert NatText(5) == "5";
    assert NatText(50) == "50";
    assert IntText(500) == "500";
    HttpErrorMessage(Mounted, cl, 500, data);
    var r := Run(Mounted, cl, Response(500, data));
    assert r.error == Some(HttpErrorLead + "500");
    assert HttpErrorLead + "500" == "Failed to analyze PRs: HTTP error! Status: 500";
    assert !r.loading && Truthy(r.error);
  }

  /** One relevant feature and one irrelevant result: the feature group
      holds the first PR alone and every other group is empty. */
  lemma OneFeatureGroups(second: PullRequest, skipped: AnalysisResult)
    requires !skipped.relevant
    ensures var reply := [AnalysisResult(true, "feature", "Add X", "..."), skipped];
      var g := GroupByCategory(reply, [SomePr, second]);
      && g.feature == [EnrichedPR(Some(SomePr), reply[0])]
      && g.bugfix == g.improvement == g.documentation == g.other == []
  {
    var prs := [SomePr, second];
    var reply := [AnalysisResult(true, "feature", "Add X", "..."), skipped];
    var g := GroupByCategory(reply, prs);
    var es := Correlate(reply, prs);
    assert es[0] == EnrichedPR(Some(SomePr), reply[0]);
    assert es[1..] == [es[1]] && es[1..][1..] == [];
    assert CategoryOf("feature") == Feature;
    forall c: Category ensures Select(es[1..], c) == [] {
      assert !Keeps(c, es[1]);
    }
    assert Select(es, Feature) == [es[0]];
    forall c: Category | c != Feature ensures g.Bucket(c) == [] {
      assert !Keeps(c, es[0]);
      assert Select(es, c) == Select(es[1..], c);
    }
    assert g.feature == g.Bucket(Feature) && g.bugfix == g.Bucket(Bugfix) && g.improvement == g.Bucket(Improvement);
    assert g.documentation == g.Bucket(Documentation) && g.other == g.Bucket(Other);
  }

  /** The same reply, rendered: a single "New Features" section. */
  lemma OneFeatureSection(second: PullRequest, skipped: AnalysisResult)
    requires !skipped.relevant
    ensures var cl := Changelog("o", "r", [SomePr, second], None);
      var reply := [AnalysisResult(true, "feature", "Add X", "..."), skipped];
      Render(Run(Mounted, cl, Response(200, reply)), cl.prs)
        == Populated([Section(Feature, Title(Feature), [EnrichedPR(Some(SomePr), reply[0])])])
  {
    var prs := [SomePr, second];
    var reply := [AnalysisResult(true, "feature", "Add X", "..."), skipped];
    var g := GroupByCategory(reply, prs);
    OneFeatureGroups(second, skipped);
    OnlyFeatureSection(g);
    var cl := Changelog("o", "r", prs, None);
    var st := Run(Mounted, cl, Response(200, reply));
    assert st == ListState(false, None, reply);
    assert RelevantCount(reply) == 1 by {
      assert reply[1..] == [skipped] && reply[1..][1..] == [];
      assert RelevantCount(reply[1..]) == 0;
    }
    assert Render(st, prs) == Populated(SectionsFor(g, Order));
  }

  lemma OnlyFeatureSection(g: Groups)
    requires g.feature != [] && g.bugfix == g.improvement == g.documentation == g.other == []
    ensures SectionsFor(g, Order) == [Section(Feature, Title(Feature), g.feature)]
  {
    OrderTails();
    assert SectionsFor(g, [Other]) == [];
    assert SectionsFor(g, [Documentation, Other]) == [];
    assert SectionsFor(g, [Improvement, Documentation, Other]) == [];
    assert SectionsFor(g, [Bugfix, Improvement, Documentation, Other]) == [];
  }

  /** An unknown category ("hotfix") on a relevant result lands in `other`. */
  lemma UnknownCategoryGoesToOther(prs: seq<PullRequest>)
    ensures var reply := [AnalysisResult(true, "hotfix", "Fix", "")];
      GroupByCategory(reply, prs).other == Correlate(reply, prs)
  {
    var reply := [AnalysisResult(true, "hotfix", "Fix", "")];
    assert CategoryOf("hotfix") == Other;
    assert Correlate(reply, prs)[1..] == [];
  }
}

=== FILE: model.dfy ===
/** The records that flow through the changelog pipeline. */
module Model {
  import opened Js

  /** A GitHub label: its name and its colour as hex text (normally "rrggbb"). */
  datatype Label = Label(name: string, color: string)

  /** The fields of a pull request that the pipeline and the entry card read.
      `author` is `user?.login`; `createdAt` and `mergedAt` are absent for
      `null`; `mergedAt` is absent when the PR was closed without merging. */
  datatype PullRequest = PullRequest(
    number: int,
    title: string,
    body: Option<string>,
    author: Option<string>,
    htmlUrl: string,
    createdAt: Option<string>,
    mergedAt: Option<string>,
    labels: seq<Label>)

  /** The `changelog` prop: repository identity, the PRs (their order is the
      correlation key) and the optional list of diffs aligned with them. */
  datatype Changelog = Changelog(
    owner: string,
    repo: string,
    prs: seq<PullRequest>,
    diffs: Option<seq<string>>)

  /** One element of the analysis service's reply. */
  datatype AnalysisResult = AnalysisResult(
    relevant: bool,
    category: string,
    changelogTitle: string,
    excerpt: string)

  /** A PR with its analysis result attached. The PR is absent when the reply has more
      elements than there are PRs (`changelog.prs[index]` is `undefined`). */
  datatype EnrichedPR = EnrichedPR(pr: Option<PullRequest>, analysis: AnalysisResult)
}
